=== FILE: README.md ===
# Vinylla player — playback controller model

A Dafny model of the playback logic of the Vinylla browser music player. The
current player (`script.js`) keeps one controller state: the library index
loaded, whether it plays, the shuffle and repeat flags, the media element's
source, position and volume, and the volume slider's value. The model covers
how the transport buttons, the track-ended event, the keyboard and the playlist
panel change that state. It
also covers the text the player renders: `M:SS` clocks, the playlist's total
runtime, and the sorted playlist rows with their library indices. The earlier
upload-driven player (`archive/_legacy/script.js`) is modelled as well: its
file filter and append, its bounds-checked track load and its play/pause
toggle.

Everything is a pure function over immutable datatypes. The browser's parts
become inputs:

- a `play()` promise becomes a `PlayOutcome` (`Resolved` or `Rejected`), applied
  as soon as it settles (the host runs one event at a time);
- `Math.random()` becomes a supplied sequence of draws, or the index the retry
  loop accepted;
- `localeCompare` becomes a comparator parameter `cmp`;
- `localStorage` becomes a `map<string, string>`;
- the object URL minted for an uploaded file is a field of `File`.

Modules, one per concern:

- `Base`: `Option` and `PlayOutcome`.
- `Clock`: decimal digits, `padStart(2, "0")`, `split(':')`, `Number`, the
  `M:SS` format and parse, and the progress labels.
- `Library`: `Track` and the three-track library the player ships with.
- `Navigation`: previous, next, the shuffle retry loop, and the cycle that next
  walks.
- `PlaylistView`: the stable sort of the library, `findIndex`, and the playlist
  rows.
- `Runtime`: the `reduce` that totals the durations, and its label.
- `Player`: the controller's state machine, seeks, volume keys and
  preferences.
- `Legacy`: the upload player.

Notes on the code:

- `loadSong` has no range check. An index outside the library makes it throw.
  `Player.LoadSong` therefore requires a valid index. Only the legacy
  `loadTrack` treats a bad index as a no-op.
- `setVolume` does not clamp. Only the arrow keys clamp, and the slider's own
  range bounds its values. `Player.KeyDownKeepsValid` shows the keys keep the
  volume in [0, 1].
- The total runtime shows unpadded minutes (`M:SS`), not `MM:SS`.

## Model

| member | source | states |
|---|---|---|
| Navigation.PrevIndex | script.js:123-129 | from index 0 (or below) previous goes to the last track, otherwise to i-1; a valid index stays valid |
| Navigation.NextIndex | script.js:136 | next stays in the library, wraps from the last track to 0 and otherwise moves to i+1 |
| Navigation.PrevNextInverse | script.js:123-139 | previous undoes next and next undoes previous on every valid index |
| Navigation.NextIterateIsModular | script.js:136 | k presses of next from i land on (i+k) mod n |
| Navigation.NextCycle | script.js:136 | n presses of next return to the start; the n indices visited on the way are pairwise distinct and cover the whole library |
| Navigation.PickRandom | script.js:142-150 | the retry loop yields the first draw it accepts; that index is in range and differs from the current one when the library has more than one track; it yields nothing only if every draw was rejected |
| Navigation.ShufflePickMoves | script.js:144-146 | a shuffle pick differs from the current index when n > 1 and is that same index when n = 1 |
| Player.LoadSong | script.js:68-89 | loading sets the index, the source and position 0, keeps the flags, the volume and the slider, keeps playing only if it was playing and the device accepts, and yields a valid state |
| Player.PlaySong | script.js:92-106 | play ends playing exactly when the device accepts and changes nothing else |
| Player.PauseSong | script.js:109-120 | pause always ends paused and changes nothing else |
| Player.PauseIdempotent | script.js:109-120 | pausing twice equals pausing once; pausing a paused player is a no-op |
| Player.TogglePlayback | script.js:320-322 | the play button pauses a playing player and otherwise plays as far as the device allows, touching nothing else |
| Player.TogglePlaybackTwice | script.js:320-322 | two presses with an accepting device restore the state |
| Player.PrevSong | script.js:123-129 | previous loads the wrapped previous index and ignores shuffle |
| Player.NextSong | script.js:132-150 | next loads (i+1) mod n without shuffle and the supplied pick with shuffle; with shuffle and n > 1 the index always changes |
| Player.PrevNextRoundTrip | script.js:123-139 | without shuffle, previous after next and next after previous come back to the starting track |
| Player.TrackEnded | script.js:356-365 | with repeat on, the same track restarts at 0 and plays if the device accepts; with repeat off the result is that of next; a repeat changes nothing but the position and the play state; valid states stay valid |
| Player.SelectRow | script.js:271-275 | clicking a row loads the row's index at position 0; the player ends playing unless the play is refused or the earlier resume was refused; the flags, the volume and the slider are kept |
| Player.SelectShownRow | script.js:253-275 | with distinct title/artist pairs, clicking a rendered row loads the track that row shows, and the next rendering marks that row as playing |
| Player.ToggleShuffle | script.js:153-159 | the shuffle flag flips and nothing else changes |
| Player.ToggleRepeat | script.js:162-168 | the repeat flag flips and nothing else changes |
| Player.ToggleTwice | script.js:153-168 | toggling shuffle or repeat twice restores the state |
| Player.SeekBackward | script.js:335 | back five seconds gives t-5, or 0 when t <= 5 |
| Player.SeekForward | script.js:338-344 | forward five seconds gives t+5, capped at the duration; with an unknown duration the position is kept |
| Player.SeekStaysInTrack | script.js:335-341 | from a position in [0, d] both seeks stay in [0, d], and forward never moves back |
| Player.SeekRoundTrip | script.js:335-341 | back then forward returns to t when 5 <= t <= d |
| Player.SeekKey | script.js:375-378 | the arrow seeks change only the position, keep it non-negative, and keep it within a known duration |
| Player.VolumeUp | script.js:380 | up gives v+0.1, capped at 1 |
| Player.VolumeDown | script.js:383 | down gives v-0.1, floored at 0 |
| Player.Mute | script.js:387-393 | M sends an audible volume to 0 and a silent one to 0.7 |
| Player.VolumeKeysKeepRange | script.js:379-394 | every volume key keeps the volume in [0, 1]; M flips the muted icon; down undoes up below the top, and up undoes down above the bottom |
| Player.SetVolume | script.js:204-206 | the media element takes the slider's value and nothing else changes |
| Player.SliderKey | script.js:379-384 | a volume key leaves the slider and the media element both at the new level and changes nothing else |
| Player.KeyDown | script.js:371-396 | space is the play button; left and right change only the position, to the back and forward seeks of it; up and down step the slider's value (not the media element's) and M tests the media element's volume, and after each of the three the slider and the media element agree and nothing else changes; only space changes the play state; no key changes the track; other keys change nothing |
| Player.KeyDownKeepsValid | script.js:371-396 | every key keeps a valid state valid and the position within a known duration |
| Player.StoredFlag | script.js:303 | a stored flag reads as true exactly when the stored text is 'true' |
| Player.RestoreVolume | script.js:296-300 | no stored volume does nothing; a stored text that parses to a level in [0, 1] is restored; any other stored text (NaN or out of range) is refused by the media element |
| Player.LoadFlags | script.js:302-314 | a stored 'true' switches shuffle or repeat on, anything else leaves the flag as it was, and nothing else changes |
| Player.LoadPreferences | script.js:294-315 | a restored level goes to both the media element and the slider, no stored volume keeps both, and a refused one leaves the whole state as it was, flags included; otherwise each stored 'true' switches its flag on; nothing but the flags and the two volumes changes |
| Player.Startup | script.js:56-65 | after start-up the first track is loaded (its audio is the source) at position 0 and paused, a restored volume sets the media element and the slider, otherwise the media element is at full volume while the slider holds the page's value; the state is valid when that value is in [0, 1]; each flag is on exactly when 'true' is stored for it and the stored volume is not refused |
| Player.PreferencesRoundTrip | script.js:296-310 | a shuffle or repeat flag that was toggled and saved comes back after a restart, unless the stored volume is refused first |
| PlaylistView.CompareByKey | script.js:232-236 | the comparator looks only at the sort key: tracks with the same title (by title) or artist (by artist) compare alike against any track, and natural order ties every pair |
| PlaylistView.OrderOf | script.js:231-235 | the selector value 'title' sorts by title, 'artist' sorts by artist, and anything else keeps natural order |
| PlaylistView.SortView | script.js:232-236 | the sorted view is a permutation of the library |
| PlaylistView.SortViewSorted | script.js:232-236 | under a consistent comparator the view is in sorted order |
| PlaylistView.SortViewStable | script.js:232-236 | the sort is stable: the tracks that tie with any given track keep their library order |
| PlaylistView.NaturalOrderKeepsLibrary | script.js:235 | with no sort order the view is the library itself, in its own order |
| PlaylistView.ConsistentLifts | script.js:233-234 | a consistent string comparator gives a consistent track comparator under every order |
| PlaylistView.FindIndex | script.js:256 | the result is the first index with the same title and artist, or -1 exactly when there is none |
| PlaylistView.RenderRows | script.js:253-260 | one row per track, numbered from 1, showing the tracks in exactly the sorted view's order (so a permutation of the library); each row's index points at an entry with its title and artist, and a row is marked exactly when its index is the current one |
| PlaylistView.RowsMapBack | script.js:256-260 | with distinct title/artist pairs each row points at exactly its own track, and exactly one row is marked when the current index is valid |
| PlaylistView.CurrentRowShown | script.js:253-260 | with distinct title/artist pairs and a valid current index, some rendered row is marked as playing |
| Library.Sample | script.js:31-53 | the shipped library has three tracks with distinct title/artist pairs |
| Runtime.Plus | script.js:244 | JavaScript `+` on numbers or NaN: a number exactly when both sides are, and then their sum |
| Runtime.Reduce | script.js:242-245 | the running sum is a number exactly when the start and every duration are numbers, and it never falls below the start |
| Runtime.TotalRuntime | script.js:229-249 | the label of the sorted view reads back as the reduce's total over that view |
| Runtime.TotalSeconds | script.js:242-245 | the total is a number exactly when every duration parses |
| Runtime.ReduceIsTotal | script.js:242-245 | the left-to-right reduce from any start adds the sum of every track's minutes*60+seconds |
| Runtime.SumIsOrderFree | script.js:242-245 | a sum of per-track values (NaN absorbing) is the same for every ordering of the same tracks |
| Runtime.TotalIsOrderFree | script.js:242-245 | the total is the same for every ordering of the same tracks |
| Runtime.RuntimeLabel | script.js:246-249 | a numeric total is shown as its M:SS clock text; the label parses back to the total: a numeric total to its seconds, a NaN total to NaN |
| Runtime.TotalRuntimeOfLibrary | script.js:229-249 | the label shown under any sort order is the label of the unsorted library's total, and it parses back to that total (NaN when a duration does not parse) |
| Runtime.RuntimeExample | script.js:242-249 | durations 4:55, 4:27 and 3:45 total 787 seconds, shown as 13:07 under every order |
| Clock.Digits | script.js:249 | toString gives a non-empty digit string with no leading zero, one digit exactly below 10 |
| Clock.ValueOfDigits | script.js:243-249 | reading a rendered number back gives the number |
| Clock.PadTwo | script.js:249 | padStart(2, '0') keeps strings of length 2 or more and left-fills shorter ones with '0' to length 2 |
| Clock.NumberOf | script.js:243 | Number of a digit string is its value, the empty string is 0, and anything else is NaN |
| Clock.Split | script.js:243 | split gives separator-free pieces that join back to the input |
| Clock.SplitPair | script.js:243 | two separator-free strings around one ':' split back into exactly those two |
| Clock.ParseDuration | script.js:243-244 | a duration without ':' is NaN |
| Clock.ParseMinutesSeconds | script.js:243-244 | digits, ':' and digits parse to minutes*60+seconds |
| Clock.FormatTime | script.js:247-249 | the clock text is the decimal minutes s/60 without padding, a ':' and two digits holding s mod 60 |
| Clock.ParseClockText | script.js:243-244 | any clock text of m minutes and sec seconds parses to m*60+sec |
| Clock.ParseFormatRoundTrip | script.js:243-249 | parsing a formatted clock gives back its seconds |
| Clock.FormatExamples | script.js:247-249 | 295 s is 4:55 and 7 s is 0:07 (seconds below ten get a leading zero) |
| Clock.ClockParts | script.js:176-183 | floor(t/60) and floor(t mod 60), with JavaScript's remainder, are the minutes and seconds of floor(t) |
| Clock.TenPad | script.js:178-186 | the '0'-below-ten padding equals padStart(2, '0') and gives two characters below 60 |
| Clock.ProgressLabels | script.js:171-193 | the current-time label is the clock of the whole seconds; the duration label exists exactly when the duration is known and non-zero, and is then its clock |
| Clock.FormatClock | archive/_legacy/script.js:117-121 | formatTime of a fractional time is the M:SS clock of its whole seconds |
| Legacy.IsAudio | archive/_legacy/script.js:59 | a file is audio exactly when its MIME type starts with 'audio/' |
| Legacy.AudioEntries | archive/_legacy/script.js:58-68 | only audio files produce entries, each with duration 0; all-audio input keeps every file, input with no audio yields none |
| Legacy.AudioEntriesAppend | archive/_legacy/script.js:59-68 | the filter commutes with concatenation, so entries come in input order |
| Legacy.LoadTrack | archive/_legacy/script.js:78-84 | an in-range index becomes the current track and its URL the source; any other index changes nothing |
| Legacy.ProcessFiles | archive/_legacy/script.js:58-76 | existing entries stay in place; the audio entries are appended; track 0 is loaded exactly when no source was set and the playlist is non-empty; an existing source is kept |
| Legacy.ProcessFilesAsWritten | archive/_legacy/script.js:58-70 | as written, the entries are appended and nothing else changes: the source, the current track and the play state stay as they were |
| Legacy.ProcessFilesNeverLoads | archive/_legacy/script.js:70-75 | one audio file chosen through the file input of a fresh player: as written no source is set, as intended the file is loaded |
| Legacy.ProcessFilesTwice | archive/_legacy/script.js:58-76 | two batches processed in turn give the same playlist and source as one batch of both |
| Legacy.TogglePlayPause | archive/_legacy/script.js:86-96 | the playing flag flips and nothing else changes |
| Legacy.TogglePlayPauseTwice | archive/_legacy/script.js:86-96 | toggling twice restores the state |

## Left out

- DOM updates, CSS class toggles, `innerHTML` rendering and event-listener wiring. They are presentation with no state of their own. The playlist rows are kept only as data.
- The media element itself: `load()`, decoding, and the timing of `play()` promises. A settled promise is an input, and a new source restarts at position 0.
- `localStorage` reads and writes. They are a map lookup and update. Float-to-text conversion is not modelled: `parseFloat` of the stored volume (script.js:298) is a parameter, and the text `setVolume` writes (script.js:209) is not related to it.
- `Math.random`. `Navigation.PickRandom` runs the retry loop over a finite sequence of draws, and the controller takes the accepted pick as an input. Whether the real loop ends is a question of probability, which is not modelled.
- The floating-point progress percentage and click-to-seek (script.js:173-174, 196-201). Both divide by element widths or durations and only drive presentation.
- `localeCompare` collation. It is the parameter `cmp`. Sortedness and stability are proved only for comparators that are consistent (antisymmetric in sign, and transitive).
- The waveform canvas, `showPlayerSections`, `updateTrackInfo`, and the legacy `updateProgress` (archive/_legacy/script.js:98-149). They are presentation plus calls to `formatTime`, which `Clock.FormatClock` models.
- `durTime` (script.js:406) and the legacy `previousTrack`, `nextTrack` and `updatePlaylistUI` are never defined, so there is no behaviour behind them. In the legacy constructor, the `previousTrack.bind` call at line 28 also throws, so the listeners after it are never registered. That is not modelled.
- Numbers are exact unbounded integers and reals. The source's doubles agree with them only below 2^53, and `toString` only below 10^21, where it switches to exponent form, so `Clock.Digits`, `Clock.FormatTime` and `Clock.ParseFormatRoundTrip` describe the program only below those bounds. A seek's `t + 5` (script.js:341, 378) may round in doubles.
- Infinite durations (streams) are not modelled. A duration is known, or unknown as NaN.
- Clock.NumberOf: only digit strings (and the empty string) are numbers. Whitespace, signs, decimals, exponents and hex forms, which `Number` also accepts, read as NaN here.
- Player.VolumeUp: uses exact real arithmetic. The source's IEEE doubles can land a step like 0.7 + 0.1 on 0.7999999999999999.
- Player.VolumeDown: uses exact real arithmetic, as VolumeUp does.
- Player.SeekForward: an unknown duration keeps the position. The button checks for NaN. For the right-arrow key, the model relies on the media element refusing to set a NaN time.
- Player.Startup: the slider's initial value comes from the page's markup, which is not part of this model, so it is a parameter.
- Player.LoadPreferences: the slider is given the parsed level. The range input's own sanitising of the raw stored text (a trailing non-numeric part, say) is not modelled.
- The range slider's own snapping of values to its step is not modelled.

## Findings

| source | as written | input that shows it | evidently intended | confidence | as-written member | corrected member |
|---|---|---|---|---|---|---|
| archive/_legacy/script.js:70 | `processFiles` calls `this.updatePlaylistUI()`, which the class never defines. The call throws after the entries are appended, so `showPlayerSections` and the load of track 0 (lines 71-75) never run. | one `audio/mpeg` file chosen through the file input of a fresh player | the first track is loaded when no source is set yet | high (not executed) | Legacy.ProcessFilesAsWritten (exhibited by Legacy.ProcessFilesNeverLoads) | Legacy.ProcessFiles |

=== FILE: base.dfy ===
/** Small shared datatypes of the player model. */
module Base {

  /** A value that may be absent: a missing preference, a NaN number, a draw
      sequence that ran out before the retry loop accepted an index. */
  datatype Option<+T> = None | Some(value: T)

  /** How the media element's `play()` promise settled. */
  datatype PlayOutcome = Resolved | Rejected

  function Min(a: real, b: real): real { if a <= b then a else b }

  function Max(a: real, b: real): real { if a >= b then a else b }
}

=== FILE: clock.dfy ===
/** Text forms of times: the decimal rendering of integers, `padStart(2, "0")`,
    `split(':')`, `Number(...)`, and the `M:SS` clock format and its parse. */
module Clock {
  import opened Base

  predicate IsDigit(c: char) { '0' <= c <= '9' }

  predicate AllDigits(s: string) { forall i :: 0 <= i < |s| ==> IsDigit(s[i]) }

  function DigitChar(d: nat): (c: char)
    requires d < 10
    ensures IsDigit(c) && c as int - '0' as int == d
  {
    ('0' as int + d) as char
  }

  /** The decimal rendering of `n`, as `n.toString()` gives it. */
  function Digits(n: nat): (s: string)
    ensures |s| >= 1 && AllDigits(s)
    ensures |s| == 1 <==> n < 10
    ensures n > 0 ==> s[0] != '0'
    decreases n
  {
    if n < 10 then [DigitChar(n)] else Digits(n / 10) + [DigitChar(n % 10)]
  }

  /** The number a string of decimal digits denotes (leading zeros allowed). */
  function Value(s: string): nat
    requires AllDigits(s)
  {
    if s == [] then 0 else Value(s[..|s| - 1]) * 10 + (s[|s| - 1] as int - '0' as int)
  }

  /** `Number(s)` for the strings the model admits: a run of decimal digits,
      the empty string counting as 0; anything else is NaN (`None`). */
  function NumberOf(s: string): (r: Option<nat>)
    ensures r.Some? <==> AllDigits(s)
    ensures AllDigits(s) ==> r == Some(Value(s))
    ensures s == [] ==> r == Some(0)
  {
    if AllDigits(s) then Some(Value(s)) else None
  }

  /** `s.padStart(2, "0")`. */
  function PadTwo(s: string): (r: string)
    ensures |s| >= 2 ==> r == s
    ensures |s| < 2 ==> |r| == 2 && r[2 - |s|..] == s && forall i :: 0 <= i < 2 - |s| ==> r[i] == '0'
  {
    if |s| >= 2 then s else if |s| == 1 then "0" + s else "00"
  }

  /** `s.split(sep)`: the maximal separator-free pieces, empty ones included. */
  function Split(s: string, sep: char): (parts: seq<string>)
    ensures |parts| >= 1
    ensures forall i :: 0 <= i < |parts| ==> sep !in parts[i]
    ensures Join(parts, sep) == s
  {
    if s == [] then [[]]
    else
      var rest := Split(s[1..], sep);
      if s[0] == sep then
        [[]] + rest
      else
        assert Join(rest, sep) == s[1..];
        JoinHead(s[0], rest, sep);
        [[s[0]] + rest[0]] + rest[1..]
  }

  /** The inverse of `Split`: glue the pieces back with the separator. */
  function Join(parts: seq<string>, sep: char): string
    requires |parts| >= 1
  {
    if |parts| == 1 then parts[0] else parts[0] + [sep] + Join(parts[1..], sep)
  }

  lemma JoinHead(c: char, parts: seq<string>, sep: char)
    requires |parts| >= 1
    ensures Join([[c] + parts[0]] + parts[1..], sep) == [c] + Join(parts, sep)
  {
    var glued := [[c] + parts[0]] + parts[1..];
    if |parts| > 1 {
      assert glued[1..] == parts[1..];
    }
  }

  /** A string without the separator splits into itself alone. */
  lemma {:induction false} SplitWithoutSeparator(s: string, sep: char)
    requires sep !in s
    ensures Split(s, sep) == [s]
  {
    if s != [] {
      assert sep !in s[1..];
      SplitWithoutSeparator(s[1..], sep);
    }
  }

  /** Two separator-free strings glued by one separator split back into the two. */
  lemma {:induction false} SplitPair(a: string, b: string, sep: char)
    requires sep !in a && sep !in b
    ensures Split(a + [sep] + b, sep) == [a, b]
  {
    var s := a + [sep] + b;
    if a == [] {
      assert s[1..] == b;
      SplitWithoutSeparator(b, sep);
    } else {
      assert s[1..] == a[1..] + [sep] + b;
      assert sep !in a[1..];
      SplitPair(a[1..], b, sep);
      assert [a[0]] + a[1..] == a;
    }
  }

  /** One `"M:SS"` duration as the playlist total reads it: split at ':',
      convert the first two pieces with `Number`, and take minutes * 60 +
      seconds; a missing seconds piece or a non-numeric piece gives NaN. */
  function ParseDuration(s: string): (r: Option<nat>)
    ensures ':' !in s ==> r == None
  {
    var parts := Split(s, ':');
    assert ':' !in s ==> |parts| == 1 by {
      if ':' !in s { SplitWithoutSeparator(s, ':'); }
    }
    if |parts| < 2 then None
    else
      match (NumberOf(parts[0]), NumberOf(parts[1]))
      case (Some(m), Some(sec)) => Some(m * 60 + sec)
      case _ => None
  }

  /** A clock text for `m` minutes and `sec` seconds: digits denoting `m`, a
      ':' and exactly two digits denoting `sec`. */
  predicate ClockText(r: string, m: nat, sec: nat)
  {
    && |r| >= 4 && r[|r| - 3] == ':'
    && AllDigits(r[..|r| - 3]) && AllDigits(r[|r| - 2..])
    && Value(r[..|r| - 3]) == m && Value(r[|r| - 2..]) == sec
  }

  /** Whole seconds as `M:SS`: unpadded minutes, seconds padded to two digits. */
  function FormatTime(s: nat): (r: string)
    ensures ClockText(r, s / 60, s % 60)
    ensures r[..|r| - 3] == Digits(s / 60)
  {
    var mins := Digits(s / 60);
    var secs := PadTwo(Digits(s % 60));
    ValueOfDigits(s / 60);
    ValueOfDigits(s % 60);
    LeadingZero(Digits(s % 60));
    var r := mins + ":" + secs;
    assert r[..|r| - 3] == mins;
    assert r[|r| - 2..] == secs;
    r
  }

  /** `Digits` and `Value` are inverse on natural numbers. */
  lemma {:induction false} ValueOfDigits(n: nat)
    ensures Value(Digits(n)) == n
    decreases n
  {
    if n >= 10 {
      var s := Digits(n);
      assert s[..|s| - 1] == Digits(n / 10);
      ValueOfDigits(n / 10);
    }
  }

  /** A leading zero does not change the value of a digit string. */
  lemma {:induction false} LeadingZero(s: string)
    requires AllDigits(s)
    ensures AllDigits("0" + s) && Value("0" + s) == Value(s)
  {
    if s != [] {
      var z := "0" + s;
      assert z[..|z| - 1] == "0" + s[..|s| - 1];
      LeadingZero(s[..|s| - 1]);
    }
  }

  /** Reading back what `FormatTime` wrote gives the seconds it was given. */
  lemma ParseFormatRoundTrip(s: nat)
    ensures ParseDuration(FormatTime(s)) == Some(s)
  {
    ClockTextOfSeconds(FormatTime(s), s);
  }

  /** A clock text of the minutes and seconds in `s` parses to `s`. */
  lemma ClockTextOfSeconds(r: string, s: nat)
    requires ClockText(r, s / 60, s % 60)
    ensures ParseDuration(r) == Some(s)
  {
    ParseClockText(r, s / 60, s % 60);
    assert (s / 60) * 60 + s % 60 == s;
  }

  /** Any clock text parses to its minutes * 60 + seconds. */
  lemma ParseClockText(r: string, m: nat, sec: nat)
    requires ClockText(r, m, sec)
    ensures ParseDuration(r) == Some(m * 60 + sec)
  {
    var mins, secs := r[..|r| - 3], r[|r| - 2..];
    assert r == mins + ":" + secs;
    ParseMinutesSeconds(mins, secs);
  }

  /** A duration written as digits, ':' and digits denotes minutes * 60 + seconds. */
  lemma {:induction false} ParseMinutesSeconds(m: string, sec: string)
    requires AllDigits(m) && AllDigits(sec)
    ensures ParseDuration(m + ":" + sec) == Some(Value(m) * 60 + Value(sec))
  {
    NoColonInDigits(m);
    NoColonInDigits(sec);
    SplitPair(m, sec, ':');
    var s := m + ":" + sec;
    assert s == m + [':'] + sec;
    var parts := Split(s, ':');
    assert parts == [m, sec];
    assert NumberOf(parts[0]) == Some(Value(m));
    assert NumberOf(parts[1]) == Some(Value(sec));
    assert ParseDuration(s) == Some(Value(m) * 60 + Value(sec));
  }

  lemma NoColonInDigits(s: string)
    requires AllDigits(s)
    ensures ':' !in s
  {
    forall i | 0 <= i < |s| ensures s[i] != ':' { assert IsDigit(s[i]); }
  }

  lemma FormatExamples()
    ensures FormatTime(295) == "4:55" && FormatTime(7) == "0:07"
  {
    FormatOf(295, "4", "55");
    FormatOf(7, "0", "07");
  }

  /** `FormatTime` is the minutes' digits, a colon and the padded seconds. */
  lemma FormatOf(s: nat, mins: string, secs: string)
    requires Digits(s / 60) == mins && PadTwo(Digits(s % 60)) == secs
    ensures FormatTime(s) == mins + ":" + secs
  {
  }

  /** `Math.floor(t / 60)` and `Math.floor(t % 60)` for a non-negative time, with
      JavaScript's remainder `t - 60 * trunc(t / 60)`. */
  function ClockParts(t: real): (r: (nat, nat))
    requires t >= 0.0
    ensures r.0 == t.Floor / 60 && r.1 == t.Floor % 60
  {
    var n := t.Floor;
    var m := (t / 60.0).Floor;
    assert m == n / 60 by {
      var q := n / 60;
      assert (q * 60) as real <= n as real <= t;
      assert q as real <= t / 60.0;
      assert t < (n + 1) as real <= (q * 60 + 60) as real;
      assert t / 60.0 < (q + 1) as real;
    }
    var rem := t - 60.0 * m as real;
    assert rem.Floor == n % 60 by {
      assert (n - 60 * m) as real <= rem < (n - 60 * m + 1) as real;
    }
    (m, rem.Floor)
  }

  /** The clock text for a time in (possibly fractional) seconds, as
      `formatTime` and the progress handler produce it. */
  function FormatClock(t: real): (r: string)
    requires t >= 0.0
    ensures r == FormatTime(t.Floor)
  {
    var (mins, secs) := ClockParts(t);
    Digits(mins) + ":" + PadTwo(Digits(secs))
  }

  /** The seconds field as the progress handler pads it: a '0' prefix below ten. */
  function TenPad(n: nat): (r: string)
    ensures n < 60 ==> |r| == 2
    ensures r == PadTwo(Digits(n))
  {
    if n < 10 then "0" + Digits(n) else Digits(n)
  }

  /** The two labels of the progress handler: the current time always, the
      duration only when it is known and non-zero (a NaN or 0 duration is
      falsy and leaves the label as it was). */
  function ProgressLabels(currentTime: real, duration: Option<real>): (r: (string, Option<string>))
    requires currentTime >= 0.0
    requires duration.Some? ==> duration.value >= 0.0
    ensures r.0 == FormatTime(currentTime.Floor)
    ensures r.1.Some? <==> duration.Some? && duration.value != 0.0
    ensures r.1.Some? ==> r.1.value == FormatTime(duration.value.Floor)
  {
    var (cm, cs) := ClockParts(currentTime);
    var current := Digits(cm) + ":" + TenPad(cs);
    match duration
    case Some(d) =>
      if d != 0.0 then
        var (dm, ds) := ClockParts(d);
        (current, Some(Digits(dm) + ":" + TenPad(ds)))
      else
        (current, None)
    case None => (current, None)
  }
}

=== FILE: legacy.dfy ===
/** The earlier upload-driven player: a playlist filled from chosen files, a
    bounds-checked track load and a play/pause toggle. */
module Legacy {
  import opened Base

  /** A chosen file: its name, its MIME type, and the object URL the browser
      mints for it. */
  datatype File = File(name: string, mimeType: string, objectUrl: string)

  /** A playlist entry; its duration stays 0 until metadata would be read. */
  datatype Entry = Entry(name: string, url: string, duration: nat)

  datatype App = App(playlist: seq<Entry>, currentTrack: int, isPlaying: bool, src: Option<string>)

  /** The state the constructor sets up: empty playlist, track 0, paused, no source. */
  function Initial(): App
  {
    App([], 0, false, None)
  }

  /** `file.type.startsWith("audio/")`. */
  function IsAudio(f: File): (b: bool)
    ensures b <==> "audio/" <= f.mimeType
  {
    |f.mimeType| >= 6 && f.mimeType[..6] == "audio/"
  }

  function EntryOf(f: File): Entry
  {
    Entry(f.name, f.objectUrl, 0)
  }

  /** One entry per audio file, in the order the files came. */
  function AudioEntries(files: seq<File>): (es: seq<Entry>)
    ensures |es| <= |files|
    ensures forall e :: e in es ==> e.duration == 0
    ensures forall e :: e in es ==> exists f :: f in files && IsAudio(f) && e == EntryOf(f)
    ensures (forall k :: 0 <= k < |files| ==> IsAudio(files[k])) ==> |es| == |files|
    ensures (forall k :: 0 <= k < |files| ==> !IsAudio(files[k])) ==> es == []
  {
    if files == [] then []
    else
      var rest := AudioEntries(files[1..]);
      assert forall f :: f in files[1..] ==> f in files;
      assert forall k :: 1 <= k < |files| ==> files[k] == files[1..][k - 1];
      (if IsAudio(files[0]) then [EntryOf(files[0])] else []) + rest
  }

  /** The filter commutes with concatenation: appending two batches of files
      appends their entries. */
  lemma {:induction false} AudioEntriesAppend(a: seq<File>, b: seq<File>)
    ensures AudioEntries(a + b) == AudioEntries(a) + AudioEntries(b)
  {
    if a != [] {
      var head := if IsAudio(a[0]) then [EntryOf(a[0])] else [];
      assert AudioEntries(a + b) == head + AudioEntries(a[1..] + b) by {
        assert (a + b)[0] == a[0];
        assert (a + b)[1..] == a[1..] + b;
      }
      AudioEntriesAppend(a[1..], b);
      assert head + (AudioEntries(a[1..]) + AudioEntries(b)) == (head + AudioEntries(a[1..])) + AudioEntries(b);
    } else {
      assert a + b == b;
    }
  }

  /** `loadTrack`: an index naming an entry becomes the current track and its URL
      the source; any other index changes nothing. */
  function LoadTrack(app: App, index: int): (r: App)
    ensures 0 <= index < |app.playlist| ==>
              r.currentTrack == index && r.src == Some(app.playlist[index].url)
    ensures !(0 <= index < |app.playlist|) ==> r == app
    ensures r.playlist == app.playlist && r.isPlaying == app.isPlaying
  {
    if 0 <= index < |app.playlist| then
      app.(currentTrack := index, src := Some(app.playlist[index].url))
    else
      app
  }

  /** `processFiles` as written: the entries are appended, then the call of the
      undefined `updatePlaylistUI` throws, so nothing after it runs. */
  function ProcessFilesAsWritten(app: App, files: seq<File>): (r: App)
    ensures r.playlist == app.playlist + AudioEntries(files)
    ensures r.src == app.src && r.currentTrack == app.currentTrack
    ensures r.(playlist := app.playlist) == app
  {
    app.(playlist := app.playlist + AudioEntries(files))
  }

  /** `processFiles` as intended: append the audio files, then load the first
      track when the player has no source yet. */
  function ProcessFiles(app: App, files: seq<File>): (r: App)
    ensures |r.playlist| == |app.playlist| + |AudioEntries(files)|
    ensures r.playlist[..|app.playlist|] == app.playlist
    ensures r.playlist[|app.playlist|..] == AudioEntries(files)
    ensures r.src.Some? <==> app.src.Some? || |r.playlist| > 0
    ensures app.src.None? && |r.playlist| > 0 ==>
              r.currentTrack == 0 && r.src == Some(r.playlist[0].url)
    ensures app.src.Some? ==> r.src == app.src && r.currentTrack == app.currentTrack
    ensures r.isPlaying == app.isPlaying
  {
    var appended := app.(playlist := app.playlist + AudioEntries(files));
    if |appended.playlist| > 0 && appended.src.None? then LoadTrack(appended, 0) else appended
  }

  /** The defect: an audio file chosen through the file input of the fresh
      player leaves it with no track loaded, where the intended behaviour
      loads the file. */
  lemma ProcessFilesNeverLoads(f: File)
    requires IsAudio(f)
    ensures ProcessFilesAsWritten(Initial(), [f]).src == None
    ensures ProcessFiles(Initial(), [f]).src == Some(f.objectUrl)
  {
    assert [f][1..] == [];
  }

  /** Processing two batches one after the other appends the same entries and
      loads the same source as processing them together. */
  lemma ProcessFilesTwice(app: App, a: seq<File>, b: seq<File>)
    ensures ProcessFiles(ProcessFiles(app, a), b).playlist == ProcessFiles(app, a + b).playlist
    ensures ProcessFiles(ProcessFiles(app, a), b).src == ProcessFiles(app, a + b).src
  {
    var ea, eb := AudioEntries(a), AudioEntries(b);
    AudioEntriesAppend(a, b);
    var once := ProcessFiles(app, a);
    var twice := ProcessFiles(once, b);
    var whole := ProcessFiles(app, a + b);
    SameAppend(app, once, twice, whole, ea, eb);
  }

  lemma SameAppend(app: App, once: App, twice: App, whole: App, ea: seq<Entry>, eb: seq<Entry>)
    requires once.playlist == app.playlist + ea && twice.playlist == once.playlist + eb
    requires whole.playlist == app.playlist + (ea + eb)
    requires once.src.Some? <==> app.src.Some? || |once.playlist| > 0
    requires app.src.None? && |once.playlist| > 0 ==> once.src == Some(once.playlist[0].url)
    requires app.src.Some? ==> once.src == app.src
    requires twice.src.Some? <==> once.src.Some? || |twice.playlist| > 0
    requires once.src.None? && |twice.playlist| > 0 ==> twice.src == Some(twice.playlist[0].url)
    requires once.src.Some? ==> twice.src == once.src
    requires whole.src.Some? <==> app.src.Some? || |whole.playlist| > 0
    requires app.src.None? && |whole.playlist| > 0 ==> whole.src == Some(whole.playlist[0].url)
    requires app.src.Some? ==> whole.src == app.src
    ensures twice.playlist == whole.playlist && twice.src == whole.src
  {
    assert twice.playlist == whole.playlist;
    if |once.playlist| > 0 {
      assert once.playlist[0] == whole.playlist[0];
    }
  }

  /** `togglePlayPause`: the flag flips whatever the device does (the promise
      `play()` returns is not watched here). */
  function TogglePlayPause(app: App): (r: App)
    ensures r.isPlaying != app.isPlaying
    ensures r.(isPlaying := app.isPlaying) == app
  {
    app.(isPlaying := !app.isPlaying)
  }

  lemma TogglePlayPauseTwice(app: App)
    ensures TogglePlayPause(TogglePlayPause(app)) == app
  {
  }
}

=== FILE: library.dfy ===
/** The music library: the tracks the player knows and the three it ships with. */
module Library {

  /** One library entry; `duration` is the `"M:SS"` text the library stores. */
  datatype Track = Track(title: string, artist: string, cover: string, audio: string, duration: string)

  /** The playlist row lookup identifies a track by title and artist only. */
  predicate SameEntry(a: Track, b: Track)
  {
    a.title == b.title && a.artist == b.artist
  }

  /** No two library entries share a title and artist. */
  ghost predicate DistinctEntries(lib: seq<Track>)
  {
    forall i, j :: 0 <= i < j < |lib| ==> !SameEntry(lib[i], lib[j])
  }

  /** The library the player starts with. */
  function Sample(): (lib: seq<Track>)
    ensures |lib| == 3 && DistinctEntries(lib)
  {
    [ Track("Plastic Love", "Mariya Takeuchi",
            "assets/img/Mariya Takeuchi - Plastic Love.jpg",
            "assets/audio/Mariya Takeuchi - Plastic Love.flac", "4:55"),
      Track("まちがいさがし", "米津玄師",
            "assets/img/米津玄師 - まちがいさがし.jpg",
            "assets/audio/米津玄師 - まちがいさがし.flac", "4:27"),
      Track("내겐 너무 아름다운", "Arcturus OST",
            "assets/img/Arcturus OST - 내겐 너무 아름다운.jpg",
            "assets/audio/Arcturus OST - 내겐 너무 아름다운.flac", "3:45") ]
  }
}

=== FILE: navigation.dfy ===
/** Track-index arithmetic of the transport buttons: previous, next, the
    shuffle draw, and the cycle that repeated `next` walks. */
module Navigation {
  import opened Base

  /** `playPrevSong`: step back one, wrapping from the first track to the last. */
  function PrevIndex(i: int, n: int): (r: int)
    ensures i <= 0 ==> r == n - 1
    ensures i > 0 ==> r == i - 1
    ensures 0 <= i < n ==> 0 <= r < n
  {
    var j := i - 1;
    if j < 0 then n - 1 else j
  }

  /** `playNextSong` with shuffle off: step forward one modulo the library length. */
  function NextIndex(i: int, n: int): (r: int)
    requires 0 <= i < n
    ensures 0 <= r < n
    ensures i == n - 1 ==> r == 0
    ensures i < n - 1 ==> r == i + 1
  {
    (i + 1) % n
  }

  /** Previous and next undo each other on valid indices. */
  lemma PrevNextInverse(i: int, n: int)
    requires 0 <= i < n
    ensures PrevIndex(NextIndex(i, n), n) == i
    ensures NextIndex(PrevIndex(i, n), n) == i
  {
  }

  /** The index reached after `k` presses of next. */
  function NextIterate(i: int, k: nat, n: int): (r: int)
    requires 0 <= i < n
    ensures 0 <= r < n
  {
    if k == 0 then i else NextIndex(NextIterate(i, k - 1, n), n)
  }

  /** `k` presses of next advance the index by `k` modulo the library length. */
  lemma {:induction false} NextIterateIsModular(i: int, k: nat, n: int)
    requires 0 <= i < n
    ensures NextIterate(i, k, n) == (i + k) % n
  {
    if k > 0 {
      NextIterateIsModular(i, k - 1, n);
      ModSucc(i + k - 1, n);
    }
  }

  lemma ModSucc(a: nat, n: int)
    requires n > 0
    ensures ((a % n) + 1) % n == (a + 1) % n
  {
    var q, r := a / n, a % n;
    if r + 1 < n {
      ModUnique(a + 1, n, q, r + 1);
      ModUnique(r + 1, n, 0, r + 1);
    } else {
      ModUnique(a + 1, n, q + 1, 0);
      ModUnique(r + 1, n, 1, 0);
    }
  }

  /** Euclidean division is determined by quotient and remainder. */
  lemma ModUnique(a: int, n: int, q: int, r: int)
    requires n > 0 && a == q * n + r && 0 <= r < n
    ensures a % n == r && a / n == q
  {
    var q', r' := a / n, a % n;
    assert (q - q') * n == r' - r;
    if q - q' >= 1 {
      MulAtLeast(q - q', n);
    } else if q' - q >= 1 {
      MulAtLeast(q' - q, n);
    }
  }

  lemma MulAtLeast(d: int, n: int)
    requires d >= 1 && n > 0
    ensures d * n >= n
  {
    assert d * n == (d - 1) * n + n;
    assert (d - 1) * n >= 0;
  }

  /** The indices one full cycle of next presses visits, starting at `i`. */
  function Tour(i: int, n: int): (t: seq<int>)
    requires 0 <= i < n
    ensures |t| == n
  {
    seq(n, k requires 0 <= k < n => NextIterate(i, k, n))
  }

  /** Repeated next visits every index exactly once per cycle of `n` presses
      and is back where it started after `n`. */
  lemma NextCycle(i: int, n: int)
    requires 0 <= i < n
    ensures NextIterate(i, n, n) == i
    ensures forall a, b :: 0 <= a < b < n ==> Tour(i, n)[a] != Tour(i, n)[b]
    ensures forall j :: 0 <= j < n ==> j in Tour(i, n)
  {
    var t := Tour(i, n);
    NextIterateIsModular(i, n, n);
    ModUnique(i + n, n, 1, i);
    forall a, b | 0 <= a < b < n
      ensures t[a] != t[b]
    {
      NextIterateIsModular(i, a, n);
      NextIterateIsModular(i, b, n);
      ModDistinct(i + a, i + b, n);
    }
    forall j | 0 <= j < n
      ensures j in t
    {
      var k: nat := if j >= i then j - i else j - i + n;
      NextIterateIsModular(i, k, n);
      if j >= i {
        ModUnique(i + k, n, 0, j);
      } else {
        ModUnique(i + k, n, 1, j);
      }
      assert t[k] == j;
    }
  }

  lemma ModDistinct(x: int, y: int, n: int)
    requires n > 0 && 0 <= x < y < x + n
    ensures x % n != y % n
  {
    var qx, qy := x / n, y / n;
    if x % n == y % n {
      assert y - x == (qy - qx) * n;
      if qy - qx > 0 {
        MulAtLeast(qy - qx, n);
      } else {
        MulAtLeast(1 - (qy - qx), n);
      }
    }
  }

  /** The retry loop keeps a draw unless it repeats the current index of a
      library that has more than one track. */
  predicate Accepts(current: int, n: int, draw: int)
  {
    !(draw == current && n > 1)
  }

  /** An index `playRandomSong` can settle on. */
  predicate IsShufflePick(current: int, n: int, j: int)
  {
    0 <= j < n && Accepts(current, n, j)
  }

  /** With more than one track a shuffle pick is never the current index; with
      exactly one, the only pick is that track again. */
  lemma ShufflePickMoves(current: int, n: int, j: int)
    requires 0 <= current < n && IsShufflePick(current, n, j)
    ensures n > 1 ==> j != current
    ensures n == 1 ==> j == current
  {
  }

  /** `playRandomSong`'s do-while loop run over a finite supply of draws, each
      `Math.floor(Math.random() * n)`; the result is the first draw the loop
      keeps, or `None` when the supply runs out while the loop is still retrying. */
  method PickRandom(current: int, n: int, draws: seq<int>) returns (pick: Option<int>)
    requires forall k :: 0 <= k < |draws| ==> 0 <= draws[k] < n
    ensures pick.Some? ==> IsShufflePick(current, n, pick.value)
    ensures pick.Some? ==> exists k :: 0 <= k < |draws| && draws[k] == pick.value
                                     && forall m :: 0 <= m < k ==> !Accepts(current, n, draws[m])
    ensures pick.None? <==> forall k :: 0 <= k < |draws| ==> !Accepts(current, n, draws[k])
  {
    var k := 0;
    while k < |draws| && !Accepts(current, n, draws[k])
      invariant 0 <= k <= |draws|
      invariant forall m :: 0 <= m < k ==> !Accepts(current, n, draws[m])
    {
      k := k + 1;
    }
    if k < |draws| {
      pick := Some(draws[k]);
    } else {
      pick := None;
    }
  }
}

=== FILE: player.dfy ===
/** The playback controller of the current player: what is loaded, whether it
    plays, the shuffle and repeat flags, the seek and volume keys, and the
    stored preferences.  The media element is abstracted to its source,
    position and volume, and each `play()` promise to how it settles. */
module Player {
  import opened Base
  import opened Library
  import opened Navigation
  import opened PlaylistView

  datatype State = State(
    index: int,         // currentSongIndex, an index into the unsorted library
    isPlaying: bool,
    isShuffle: bool,
    isRepeat: bool,
    source: string,     // the media element's src
    position: real,     // the media element's currentTime, in seconds
    volume: real,       // the media element's volume
    slider: real)       // the volume slider's value, which the arrow keys step

  /** The states the controller keeps: a valid library index whose track is the
      loaded source, a non-negative position, and a volume and a slider value
      in [0, 1]. */
  predicate Valid(st: State, lib: seq<Track>)
  {
    && 0 <= st.index < |lib|
    && st.source == lib[st.index].audio
    && 0.0 <= st.position
    && LevelsInRange(st)
  }

  /** The media element's volume and the slider's value both lie in [0, 1]. */
  predicate LevelsInRange(st: State)
  {
    0.0 <= st.volume <= 1.0 && 0.0 <= st.slider <= 1.0
  }

  /** `loadSong`: load track `i`, keep playing if the player was playing; a
      rejected resume falls back to paused.  Assigning a new source also
      restarts the media element at position 0. */
  function LoadSong(st: State, lib: seq<Track>, i: int, outcome: PlayOutcome): (r: State)
    requires 0 <= i < |lib|
    ensures r.index == i && r.source == lib[i].audio && r.position == 0.0
    ensures r.isPlaying <==> st.isPlaying && outcome.Resolved?
    ensures r.isShuffle == st.isShuffle && r.isRepeat == st.isRepeat
    ensures r.volume == st.volume && r.slider == st.slider
    ensures LevelsInRange(st) ==> Valid(r, lib)
  {
    var loaded := st.(index := i, source := lib[i].audio, position := 0.0);
    if st.isPlaying && outcome.Rejected? then PauseSong(loaded) else loaded
  }

  /** `playSong`: mark playing and start the device; a rejection reverts to paused. */
  function PlaySong(st: State, outcome: PlayOutcome): (r: State)
    ensures r.isPlaying <==> outcome.Resolved?
    ensures r.(isPlaying := st.isPlaying) == st
  {
    var playing := st.(isPlaying := true);
    if outcome.Rejected? then PauseSong(playing) else playing
  }

  /** `pauseSong`: always ends paused and touches nothing else. */
  function PauseSong(st: State): (r: State)
    ensures !r.isPlaying
    ensures r.(isPlaying := st.isPlaying) == st
  {
    st.(isPlaying := false)
  }

  /** Pausing twice is pausing once, and pausing a paused player changes nothing. */
  lemma PauseIdempotent(st: State)
    ensures PauseSong(PauseSong(st)) == PauseSong(st)
    ensures !st.isPlaying ==> PauseSong(st) == st
  {
  }

  /** The play button and the space key: pause when playing, play otherwise. */
  function TogglePlayback(st: State, outcome: PlayOutcome): (r: State)
    ensures st.isPlaying ==> !r.isPlaying
    ensures !st.isPlaying ==> (r.isPlaying <==> outcome.Resolved?)
    ensures r.(isPlaying := st.isPlaying) == st
  {
    if st.isPlaying then PauseSong(st) else PlaySong(st, outcome)
  }

  /** Two presses with a device that accepts playback restore the state. */
  lemma TogglePlaybackTwice(st: State)
    ensures TogglePlayback(TogglePlayback(st, Resolved), Resolved) == st
  {
  }

  /** `playPrevSong`: previous ignores shuffle. */
  function PrevSong(st: State, lib: seq<Track>, outcome: PlayOutcome): (r: State)
    requires 0 <= st.index < |lib|
    ensures r.index == PrevIndex(st.index, |lib|)
    ensures r == LoadSong(st, lib, r.index, outcome)
  {
    LoadSong(st, lib, PrevIndex(st.index, |lib|), outcome)
  }

  /** What the shuffle branch of next may be given: an index the random retry
      loop can settle on (see `Navigation.PickRandom`). */
  predicate PickAllowed(st: State, lib: seq<Track>, pick: int)
  {
    st.isShuffle ==> IsShufflePick(st.index, |lib|, pick)
  }

  /** `playNextSong`: a shuffle pick when shuffle is on, the next index otherwise. */
  function NextSong(st: State, lib: seq<Track>, pick: int, outcome: PlayOutcome): (r: State)
    requires 0 <= st.index < |lib| && PickAllowed(st, lib, pick)
    ensures !st.isShuffle ==> r.index == NextIndex(st.index, |lib|)
    ensures st.isShuffle ==> r.index == pick
    ensures st.isShuffle && |lib| > 1 ==> r.index != st.index
    ensures r == LoadSong(st, lib, r.index, outcome)
  {
    if st.isShuffle then LoadSong(st, lib, pick, outcome)
    else LoadSong(st, lib, NextIndex(st.index, |lib|), outcome)
  }

  /** Previous undoes next and next undoes previous, when shuffle is off. */
  lemma PrevNextRoundTrip(st: State, lib: seq<Track>, pick: int, outcome: PlayOutcome)
    requires Valid(st, lib) && !st.isShuffle
    ensures PrevSong(NextSong(st, lib, pick, outcome), lib, outcome).index == st.index
    ensures NextSong(PrevSong(st, lib, outcome), lib, pick, outcome).index == st.index
  {
    PrevNextInverse(st.index, |lib|);
  }

  /** The media element's `ended` event: with repeat on, rewind and play the
      same track again; otherwise behave exactly as next. */
  function TrackEnded(st: State, lib: seq<Track>, pick: int, outcome: PlayOutcome): (r: State)
    requires 0 <= st.index < |lib| && PickAllowed(st, lib, pick)
    ensures st.isRepeat ==> r.index == st.index && r.source == st.source && r.position == 0.0
    ensures st.isRepeat ==> (r.isPlaying <==> outcome.Resolved?)
    ensures st.isRepeat ==> r.(isPlaying := st.isPlaying, position := st.position) == st
    ensures !st.isRepeat ==> r == NextSong(st, lib, pick, outcome)
    ensures Valid(st, lib) ==> Valid(r, lib)
  {
    if st.isRepeat then PlaySong(st.(position := 0.0), outcome)
    else NextSong(st, lib, pick, outcome)
  }

  /** Clicking a playlist row: load the library index stored on the row, then
      play.  The rejection handler of the load's own `play()` (only issued when
      the player was already playing) runs after `playSong`, so a rejection
      there leaves the player paused whatever the second `play()` does. */
  function SelectRow(st: State, lib: seq<Track>, i: int, loadOutcome: PlayOutcome, playOutcome: PlayOutcome): (r: State)
    requires 0 <= i < |lib|
    ensures r.index == i && r.source == lib[i].audio && r.position == 0.0
    ensures r.isPlaying <==> playOutcome.Resolved? && !(st.isPlaying && loadOutcome.Rejected?)
    ensures r.isShuffle == st.isShuffle && r.isRepeat == st.isRepeat
    ensures r.volume == st.volume && r.slider == st.slider
    ensures LevelsInRange(st) ==> Valid(r, lib)
  {
    var played := PlaySong(LoadSong(st, lib, i, Resolved), playOutcome);
    if st.isPlaying && loadOutcome.Rejected? then PauseSong(played) else played
  }

  /** Clicking a row of the rendered playlist loads the very track that row
      shows, and the next rendering marks that row as playing. */
  lemma SelectShownRow(order: SortOrder, cmp: (string, string) -> int, lib: seq<Track>, st: State, k: int,
                       loadOutcome: PlayOutcome, playOutcome: PlayOutcome)
    requires DistinctEntries(lib) && Valid(st, lib)
    requires 0 <= k < |lib|
    ensures var rows := RenderRows(order, cmp, lib, st.index);
            var r := SelectRow(st, lib, rows[k].libraryIndex, loadOutcome, playOutcome);
            && r.source == rows[k].track.audio
            && RenderRows(order, cmp, lib, r.index)[k].playing
  {
    RowsMapBack(order, cmp, lib, st.index);
  }

  /** `toggleShuffle`. */
  function ToggleShuffle(st: State): (r: State)
    ensures r.isShuffle != st.isShuffle
    ensures r.(isShuffle := st.isShuffle) == st
  {
    st.(isShuffle := !st.isShuffle)
  }

  /** `toggleRepeat`. */
  function ToggleRepeat(st: State): (r: State)
    ensures r.isRepeat != st.isRepeat
    ensures r.(isRepeat := st.isRepeat) == st
  {
    st.(isRepeat := !st.isRepeat)
  }

  lemma ToggleTwice(st: State)
    ensures ToggleShuffle(ToggleShuffle(st)) == st
    ensures ToggleRepeat(ToggleRepeat(st)) == st
  {
  }

  /** The back-five-seconds button and the left arrow key. */
  function SeekBackward(t: real): (r: real)
    ensures 0.0 <= r <= Max(t, 0.0)
    ensures t >= 5.0 ==> r == t - 5.0
    ensures t <= 5.0 ==> r == 0.0
  {
    Max(0.0, t - 5.0)
  }

  /** The forward-five-seconds button and the right arrow key.  An unknown
      (NaN) duration leaves the position alone: the button checks for it, and
      the key's assignment of a NaN time is refused by the media element. */
  function SeekForward(t: real, duration: Option<real>): (r: real)
    ensures duration.None? ==> r == t
    ensures duration.Some? && t + 5.0 <= duration.value ==> r == t + 5.0
    ensures duration.Some? && t + 5.0 >= duration.value ==> r == duration.value
  {
    match duration
    case None => t
    case Some(d) => Min(d, t + 5.0)
  }

  /** Seeking keeps a position inside [0, duration] there. */
  lemma SeekStaysInTrack(t: real, d: real)
    requires 0.0 <= t <= d
    ensures 0.0 <= SeekBackward(t) <= d
    ensures t <= SeekForward(t, Some(d)) <= d
  {
  }

  /** Five seconds back and five forward return to the same spot away from the ends. */
  lemma SeekRoundTrip(t: real, d: real)
    requires 5.0 <= t <= d
    ensures SeekForward(SeekBackward(t), Some(d)) == t
  {
  }

  /** The seek keys applied to the controller's state. */
  function SeekKey(st: State, forward: bool, duration: Option<real>): (r: State)
    requires 0.0 <= st.position
    requires duration.Some? ==> 0.0 <= duration.value
    ensures r.(position := st.position) == st
    ensures 0.0 <= r.position
    ensures duration.Some? && st.position <= duration.value ==> r.position <= duration.value
  {
    st.(position := if forward then SeekForward(st.position, duration) else SeekBackward(st.position))
  }

  /** The up arrow: one step louder, never above 1. */
  function VolumeUp(v: real): (r: real)
    ensures r <= 1.0
    ensures v <= 0.9 ==> r == v + 0.1
    ensures v >= 0.9 ==> r == 1.0
  {
    Min(1.0, v + 0.1)
  }

  /** The down arrow: one step quieter, never below 0. */
  function VolumeDown(v: real): (r: real)
    ensures r >= 0.0
    ensures v >= 0.1 ==> r == v - 0.1
    ensures v <= 0.1 ==> r == 0.0
  {
    Max(0.0, v - 0.1)
  }

  /** The M key: mute when audible, otherwise restore the fixed level 0.7. */
  function Mute(v: real): (r: real)
    ensures v > 0.0 ==> r == 0.0
    ensures v <= 0.0 ==> r == 0.7
  {
    if v > 0.0 then 0.0 else 0.7
  }

  /** The volume icon shows muted exactly at volume 0. */
  predicate ShowsMuted(v: real) { v == 0.0 }

  /** Every volume key keeps the volume in [0, 1]; M flips the muted icon; a
      step down undoes a step up below the top. */
  lemma VolumeKeysKeepRange(v: real)
    requires 0.0 <= v <= 1.0
    ensures 0.0 <= VolumeUp(v) <= 1.0 && 0.0 <= VolumeDown(v) <= 1.0 && 0.0 <= Mute(v) <= 1.0
    ensures ShowsMuted(Mute(v)) <==> !ShowsMuted(v)
    ensures v <= 0.9 ==> VolumeDown(VolumeUp(v)) == v
    ensures v >= 0.1 ==> VolumeUp(VolumeDown(v)) == v
  {
  }

  /** `setVolume`, run by the slider's `input` event and by the volume keys:
      the media element takes the slider's value. */
  function SetVolume(st: State): (r: State)
    ensures r.volume == st.slider
    ensures r.(volume := st.volume) == st
  {
    st.(volume := st.slider)
  }

  /** A volume key: set the slider to `level`, then `setVolume`, so that the
      media element and the slider both hold `level`. */
  function SliderKey(st: State, level: real): (r: State)
    ensures r.slider == level && r.volume == level
    ensures r.(volume := st.volume, slider := st.slider) == st
  {
    SetVolume(st.(slider := level))
  }

  /** The keys the document-level handler reacts to. */
  datatype Key = Space | ArrowLeft | ArrowRight | ArrowUp | ArrowDown | KeyM | OtherKey

  /** The `keydown` handler: space toggles playback, the left and right arrows
      seek by five seconds, the up and down arrows step the slider's value and
      apply it, and M mutes or unmutes according to the media element's volume;
      other keys do nothing. */
  function KeyDown(st: State, key: Key, duration: Option<real>, outcome: PlayOutcome): (r: State)
    requires 0.0 <= st.position
    requires duration.Some? ==> 0.0 <= duration.value
    ensures key == OtherKey ==> r == st
    ensures key != Space ==> r.isPlaying == st.isPlaying
    ensures r.index == st.index && r.source == st.source
    ensures key == Space ==> r == TogglePlayback(st, outcome)
    ensures key == ArrowLeft ==> r.position == SeekBackward(st.position)
    ensures key == ArrowRight ==> r.position == SeekForward(st.position, duration)
    ensures key.ArrowLeft? || key.ArrowRight? ==> r.(position := st.position) == st
    ensures key == ArrowUp ==> r.slider == VolumeUp(st.slider)
    ensures key == ArrowDown ==> r.slider == VolumeDown(st.slider)
    ensures key == KeyM ==> r.slider == Mute(st.volume)
    ensures key.ArrowUp? || key.ArrowDown? || key.KeyM? ==>
              r.volume == r.slider && r.(volume := st.volume, slider := st.slider) == st
  {
    match key
    case Space => TogglePlayback(st, outcome)
    case ArrowLeft => SeekKey(st, false, duration)
    case ArrowRight => SeekKey(st, true, duration)
    case ArrowUp => SliderKey(st, VolumeUp(st.slider))
    case ArrowDown => SliderKey(st, VolumeDown(st.slider))
    case KeyM => SliderKey(st, Mute(st.volume))
    case OtherKey => st
  }

  /** Every key keeps the controller's state valid and the position inside a
      known duration. */
  lemma KeyDownKeepsValid(st: State, lib: seq<Track>, key: Key, duration: Option<real>, outcome: PlayOutcome)
    requires Valid(st, lib)
    requires duration.Some? ==> 0.0 <= duration.value
    ensures Valid(KeyDown(st, key, duration, outcome), lib)
    ensures duration.Some? && st.position <= duration.value ==> KeyDown(st, key, duration, outcome).position <= duration.value
  {
    var r := KeyDown(st, key, duration, outcome);
    match key
    case Space => assert r == TogglePlayback(st, outcome);
    case ArrowLeft => assert r == SeekKey(st, false, duration);
    case ArrowRight => assert r == SeekKey(st, true, duration);
    case ArrowUp =>
      VolumeKeysKeepRange(st.slider);
      assert r == SliderKey(st, VolumeUp(st.slider));
    case ArrowDown =>
      VolumeKeysKeepRange(st.slider);
      assert r == SliderKey(st, VolumeDown(st.slider));
    case KeyM =>
      VolumeKeysKeepRange(st.volume);
      assert r == SliderKey(st, Mute(st.volume));
    case OtherKey => assert r == st;
  }

  /** The text `localStorage.setItem` stores for a boolean. */
  function FlagText(b: bool): string
  {
    if b then "true" else "false"
  }

  /** A stored flag reads as true exactly when the stored text is `'true'`. */
  function StoredFlag(stored: Option<string>): (b: bool)
    ensures b <==> stored == Some("true")
  {
    match stored
    case Some(s) => s == "true"
    case None => false
  }

  function Lookup(store: map<string, string>, key: string): Option<string>
  {
    if key in store then Some(store[key]) else None
  }

  /** What restoring the stored volume does: nothing when none is stored; set
      the media element and the slider when `parseFloat` gives a volume in
      [0, 1]; otherwise the media element refuses the value (NaN or out of
      range) and the exception ends `loadPreferences` there. */
  datatype VolumeRestore = NothingStored | Restored(level: real) | Refused

  /** `parseFloat` is a parameter: `None` stands for NaN. */
  function RestoreVolume(store: map<string, string>, parseFloat: string -> Option<real>): (v: VolumeRestore)
    ensures v == NothingStored <==> "volume" !in store
    ensures v.Restored? ==> parseFloat(store["volume"]) == Some(v.level) && 0.0 <= v.level <= 1.0
    ensures "volume" in store && parseFloat(store["volume"]).Some? && 0.0 <= parseFloat(store["volume"]).value <= 1.0 ==>
              v == Restored(parseFloat(store["volume"]).value)
  {
    if "volume" !in store then NothingStored
    else match parseFloat(store["volume"])
      case Some(level) => if 0.0 <= level <= 1.0 then Restored(level) else Refused
      case None => Refused
  }

  /** `loadPreferences`: restore the stored volume into the media element and
      the slider, then switch a flag on for each stored `'true'`; anything else
      leaves a flag as it was.  A refused volume stops before the flags. */
  function LoadPreferences(st: State, store: map<string, string>, parseFloat: string -> Option<real>): (r: State)
    ensures RestoreVolume(store, parseFloat) == Refused ==> r == st
    ensures RestoreVolume(store, parseFloat) == NothingStored ==> r.volume == st.volume && r.slider == st.slider
    ensures RestoreVolume(store, parseFloat).Restored? ==>
              r.volume == RestoreVolume(store, parseFloat).level && r.slider == r.volume
    ensures RestoreVolume(store, parseFloat) != Refused ==>
              && (r.isShuffle <==> st.isShuffle || Lookup(store, "shuffle") == Some("true"))
              && (r.isRepeat <==> st.isRepeat || Lookup(store, "repeat") == Some("true"))
    ensures r.(isShuffle := st.isShuffle, isRepeat := st.isRepeat, volume := st.volume, slider := st.slider) == st
  {
    match RestoreVolume(store, parseFloat)
    case Refused => st
    case NothingStored => LoadFlags(st, store)
    case Restored(level) => LoadFlags(st.(volume := level, slider := level), store)
  }

  /** The flag half of `loadPreferences`. */
  function LoadFlags(st: State, store: map<string, string>): (r: State)
    ensures r.isShuffle <==> st.isShuffle || Lookup(store, "shuffle") == Some("true")
    ensures r.isRepeat <==> st.isRepeat || Lookup(store, "repeat") == Some("true")
    ensures r.(isShuffle := st.isShuffle, isRepeat := st.isRepeat) == st
  {
    st.(isShuffle := st.isShuffle || StoredFlag(Lookup(store, "shuffle")),
        isRepeat := st.isRepeat || StoredFlag(Lookup(store, "repeat")))
  }

  /** The controller after start-up: the first track loaded, paused, flags off,
      the media element at full volume and the slider at the value the page
      gives it, then the stored preferences applied.  Without a stored volume
      the two volumes can differ until the first `setVolume`. */
  function Startup(lib: seq<Track>, store: map<string, string>, slider: real, parseFloat: string -> Option<real>): (r: State)
    requires |lib| > 0
    ensures r.index == 0 && r.source == lib[0].audio && !r.isPlaying && r.position == 0.0
    ensures 0.0 <= slider <= 1.0 ==> Valid(r, lib)
    ensures !RestoreVolume(store, parseFloat).Restored? ==> r.volume == 1.0 && r.slider == slider
    ensures RestoreVolume(store, parseFloat).Restored? ==>
              r.volume == RestoreVolume(store, parseFloat).level && r.slider == r.volume
    ensures r.isShuffle <==> RestoreVolume(store, parseFloat) != Refused && Lookup(store, "shuffle") == Some("true")
    ensures r.isRepeat <==> RestoreVolume(store, parseFloat) != Refused && Lookup(store, "repeat") == Some("true")
  {
    var blank := State(0, false, false, false, "", 0.0, 1.0, slider);
    LoadPreferences(LoadSong(blank, lib, 0, Resolved), store, parseFloat)
  }

  /** A flag toggled and saved comes back after a restart, unless the stored
      volume is refused first. */
  lemma PreferencesRoundTrip(st: State, lib: seq<Track>, store: map<string, string>, slider: real,
                             parseFloat: string -> Option<real>)
    requires |lib| > 0
    ensures var s := ToggleShuffle(st);
            var stored := store["shuffle" := FlagText(s.isShuffle)];
            RestoreVolume(stored, parseFloat) != Refused ==> Startup(lib, stored, slider, parseFloat).isShuffle == s.isShuffle
    ensures var s := ToggleRepeat(st);
            var stored := store["repeat" := FlagText(s.isRepeat)];
            RestoreVolume(stored, parseFloat) != Refused ==> Startup(lib, stored, slider, parseFloat).isRepeat == s.isRepeat
  {
  }
}

=== FILE: playlist.dfy ===
/** The playlist panel: the library sorted for display, and each displayed row
    mapped back to the library index that selecting it loads. */
module PlaylistView {
  import opened Library

  /** The sort selector: by title, by artist, or anything else (natural order). */
  datatype SortOrder = Natural | ByTitle | ByArtist

  function OrderOf(value: string): (o: SortOrder)
    ensures o == ByTitle <==> value == "title"
    ensures o == ByArtist <==> value == "artist"
  {
    if value == "title" then ByTitle else if value == "artist" then ByArtist else Natural
  }

  /** The sort comparator; `cmp` stands for `localeCompare`, whose collation is
      not modelled: negative, zero or positive as its first argument sorts
      before, with or after the second. */
  function Compare(order: SortOrder, cmp: (string, string) -> int, a: Track, b: Track): int
  {
    match order
    case ByTitle => cmp(a.title, b.title)
    case ByArtist => cmp(a.artist, b.artist)
    case Natural => 0
  }

  /** The comparator looks only at the key the order sorts by: two tracks with
      the same key compare alike against any third, and natural order ties
      every pair. */
  lemma CompareByKey(order: SortOrder, cmp: (string, string) -> int, a: Track, b: Track, c: Track)
    ensures order == ByTitle && a.title == b.title ==> Compare(order, cmp, a, c) == Compare(order, cmp, b, c)
    ensures order == ByArtist && a.artist == b.artist ==> Compare(order, cmp, a, c) == Compare(order, cmp, b, c)
    ensures order == Natural ==> Compare(order, cmp, a, b) == 0
  {
  }

  /** A consistent string comparator: antisymmetric in sign, and its
      "not after" relation is transitive. */
  ghost predicate ConsistentStrings(cmp: (string, string) -> int)
  {
    && (forall a, b :: cmp(a, b) < 0 <==> cmp(b, a) > 0)
    && (forall a, b, c :: cmp(a, b) <= 0 && cmp(b, c) <= 0 ==> cmp(a, c) <= 0)
  }

  /** The same two laws for the comparator on tracks.  They are stated through
      `Trio` so that they are applied only where a proof names the tracks. */
  ghost predicate Consistent(order: SortOrder, cmp: (string, string) -> int)
  {
    && (forall a, b {:trigger Trio(a, b, b)} ::
          Compare(order, cmp, a, b) < 0 <==> Compare(order, cmp, b, a) > 0)
    && (forall a, b, c {:trigger Trio(a, b, c)} ::
          Compare(order, cmp, a, b) <= 0 && Compare(order, cmp, b, c) <= 0 ==> Compare(order, cmp, a, c) <= 0)
  }

  ghost predicate Trio(a: Track, b: Track, c: Track) { true }

  lemma Antisymmetric(order: SortOrder, cmp: (string, string) -> int, a: Track, b: Track)
    requires Consistent(order, cmp)
    ensures Compare(order, cmp, a, b) < 0 <==> Compare(order, cmp, b, a) > 0
  {
    assert Trio(a, b, b);
  }

  lemma Transitive(order: SortOrder, cmp: (string, string) -> int, a: Track, b: Track, c: Track)
    requires Consistent(order, cmp)
    requires Compare(order, cmp, a, b) <= 0 && Compare(order, cmp, b, c) <= 0
    ensures Compare(order, cmp, a, c) <= 0
  {
    assert Trio(a, b, c);
  }

  /** A consistent string comparator gives a consistent track comparator under
      every sort order. */
  lemma ConsistentLifts(order: SortOrder, cmp: (string, string) -> int)
    requires order == Natural || ConsistentStrings(cmp)
    ensures Consistent(order, cmp)
  {
    forall a, b ensures Compare(order, cmp, a, b) < 0 <==> Compare(order, cmp, b, a) > 0 {
      match order
      case ByTitle => assert cmp(a.title, b.title) < 0 <==> cmp(b.title, a.title) > 0;
      case ByArtist => assert cmp(a.artist, b.artist) < 0 <==> cmp(b.artist, a.artist) > 0;
      case Natural =>
    }
    forall a, b, c | Compare(order, cmp, a, b) <= 0 && Compare(order, cmp, b, c) <= 0
      ensures Compare(order, cmp, a, c) <= 0
    {
      match order
      case ByTitle => assert cmp(a.title, b.title) <= 0 && cmp(b.title, c.title) <= 0;
      case ByArtist => assert cmp(a.artist, b.artist) <= 0 && cmp(b.artist, c.artist) <= 0;
      case Natural =>
    }
  }

  ghost predicate SortedBy(order: SortOrder, cmp: (string, string) -> int, s: seq<Track>)
  {
    forall i, j :: 0 <= i < j < |s| ==> Compare(order, cmp, s[i], s[j]) <= 0
  }

  /** Insert `x` into a sorted run after every element it does not sort before. */
  function Insert(order: SortOrder, cmp: (string, string) -> int, x: Track, s: seq<Track>): (r: seq<Track>)
    ensures multiset(r) == multiset(s) + multiset{x}
    ensures |r| == |s| + 1
  {
    if s == [] then [x]
    else if Compare(order, cmp, x, s[0]) < 0 then [x] + s
    else
      assert s == [s[0]] + s[1..];
      [s[0]] + Insert(order, cmp, x, s[1..])
  }

  /** `[...library].sort(...)`: a stable sort, written as an insertion sort. */
  function SortView(order: SortOrder, cmp: (string, string) -> int, lib: seq<Track>): (r: seq<Track>)
    ensures multiset(r) == multiset(lib)
    ensures |r| == |lib|
  {
    if lib == [] then []
    else
      assert lib == lib[..|lib| - 1] + [lib[|lib| - 1]];
      Insert(order, cmp, lib[|lib| - 1], SortView(order, cmp, lib[..|lib| - 1]))
  }

  /** An element that sorts no later than every element of a sorted run can
      head it. */
  lemma SortedCons(order: SortOrder, cmp: (string, string) -> int, x: Track, s: seq<Track>)
    requires SortedBy(order, cmp, s)
    requires forall k :: 0 <= k < |s| ==> Compare(order, cmp, x, s[k]) <= 0
    ensures SortedBy(order, cmp, [x] + s)
  {
    var r := [x] + s;
    forall i, j | 0 <= i < j < |r| ensures Compare(order, cmp, r[i], r[j]) <= 0 {
      assert r[j] == s[j - 1];
      if i > 0 {
        assert r[i] == s[i - 1];
      }
    }
  }

  lemma {:induction false} InsertSorted(order: SortOrder, cmp: (string, string) -> int, x: Track, s: seq<Track>)
    requires Consistent(order, cmp) && SortedBy(order, cmp, s)
    ensures SortedBy(order, cmp, Insert(order, cmp, x, s))
  {
    if s == [] {
    } else if Compare(order, cmp, x, s[0]) < 0 {
      forall k | 0 <= k < |s| ensures Compare(order, cmp, x, s[k]) <= 0 {
        if k > 0 {
          Transitive(order, cmp, x, s[0], s[k]);
        }
      }
      SortedCons(order, cmp, x, s);
    } else {
      var tail := Insert(order, cmp, x, s[1..]);
      assert SortedBy(order, cmp, s[1..]);
      InsertSorted(order, cmp, x, s[1..]);
      Antisymmetric(order, cmp, x, s[0]);
      forall k | 0 <= k < |tail| ensures Compare(order, cmp, s[0], tail[k]) <= 0 {
        var y := tail[k];
        assert y in multiset(tail);
        if y != x {
          assert y in multiset(s[1..]);
          var m :| 0 <= m < |s[1..]| && s[1..][m] == y;
          assert s[m + 1] == y;
        }
      }
      SortedCons(order, cmp, s[0], tail);
    }
  }

  /** Under a consistent comparator the view is in sorted order. */
  lemma {:induction false} SortViewSorted(order: SortOrder, cmp: (string, string) -> int, lib: seq<Track>)
    requires Consistent(order, cmp)
    ensures SortedBy(order, cmp, SortView(order, cmp, lib))
  {
    if lib != [] {
      SortViewSorted(order, cmp, lib[..|lib| - 1]);
      InsertSorted(order, cmp, lib[|lib| - 1], SortView(order, cmp, lib[..|lib| - 1]));
    }
  }

  /** The elements of `s` that tie with `t`, in their order in `s`. */
  function TiesWith(order: SortOrder, cmp: (string, string) -> int, s: seq<Track>, t: Track): (r: seq<Track>)
    ensures |r| <= |s|
  {
    if s == [] then []
    else if Compare(order, cmp, s[0], t) == 0 then [s[0]] + TiesWith(order, cmp, s[1..], t)
    else TiesWith(order, cmp, s[1..], t)
  }

  lemma {:induction false} TiesWithAppend(order: SortOrder, cmp: (string, string) -> int, a: seq<Track>, b: seq<Track>, t: Track)
    ensures TiesWith(order, cmp, a + b, t) == TiesWith(order, cmp, a, t) + TiesWith(order, cmp, b, t)
    decreases |a|
  {
    if a == [] {
      assert a + b == b;
    } else {
      assert (a + b)[1..] == a[1..] + b;
      TiesWithAppend(order, cmp, a[1..], b, t);
    }
  }

  /** Inserting a new element puts it after every element it ties with and
      before none of them. */
  lemma {:induction false} InsertStable(order: SortOrder, cmp: (string, string) -> int, x: Track, s: seq<Track>, t: Track)
    requires Consistent(order, cmp) && SortedBy(order, cmp, s)
    ensures TiesWith(order, cmp, Insert(order, cmp, x, s), t) == TiesWith(order, cmp, s + [x], t)
  {
    TiesWithAppend(order, cmp, s, [x], t);
    if s == [] {
      assert s + [x] == [x];
    } else if Compare(order, cmp, x, s[0]) < 0 {
      assert ([x] + s)[1..] == s;
      if Compare(order, cmp, x, t) == 0 {
        NoTiesAbove(order, cmp, x, s, t);
      }
      assert [x][1..] == [];
    } else {
      assert SortedBy(order, cmp, s[1..]);
      InsertStable(order, cmp, x, s[1..], t);
      InsertStableStep(order, cmp, x, s, t);
    }
  }

  lemma {:induction false} InsertStableStep(order: SortOrder, cmp: (string, string) -> int, x: Track, s: seq<Track>, t: Track)
    requires s != [] && Compare(order, cmp, x, s[0]) >= 0
    requires TiesWith(order, cmp, Insert(order, cmp, x, s[1..]), t) == TiesWith(order, cmp, s[1..] + [x], t)
    ensures TiesWith(order, cmp, Insert(order, cmp, x, s), t) == TiesWith(order, cmp, s, t) + TiesWith(order, cmp, [x], t)
  {
    var rest := Insert(order, cmp, x, s[1..]);
    var h := if Compare(order, cmp, s[0], t) == 0 then [s[0]] else [];
    var t1, tx := TiesWith(order, cmp, s[1..], t), TiesWith(order, cmp, [x], t);
    assert TiesWith(order, cmp, Insert(order, cmp, x, s), t) == h + (t1 + tx) by {
      InsertAfterHead(order, cmp, x, s);
      TiesWithCons(order, cmp, s[0], rest, t);
      TiesWithAppend(order, cmp, s[1..], [x], t);
    }
    assert TiesWith(order, cmp, s, t) == h + t1 by {
      assert [s[0]] + s[1..] == s;
      TiesWithCons(order, cmp, s[0], s[1..], t);
    }
    AppendAssoc(h, t1, tx);
  }

  lemma AppendAssoc<T>(a: seq<T>, b: seq<T>, c: seq<T>)
    ensures a + (b + c) == (a + b) + c
  {
  }

  lemma InsertAfterHead(order: SortOrder, cmp: (string, string) -> int, x: Track, s: seq<Track>)
    requires s != [] && Compare(order, cmp, x, s[0]) >= 0
    ensures Insert(order, cmp, x, s) == [s[0]] + Insert(order, cmp, x, s[1..])
  {
  }

  lemma TiesWithCons(order: SortOrder, cmp: (string, string) -> int, y: Track, s: seq<Track>, t: Track)
    ensures TiesWith(order, cmp, [y] + s, t) == (if Compare(order, cmp, y, t) == 0 then [y] else []) + TiesWith(order, cmp, s, t)
  {
    assert ([y] + s)[1..] == s;
  }

  /** When `x` sorts strictly before a sorted run and ties with `t`, nothing in
      the run ties with `t`. */
  lemma {:induction false} NoTiesAbove(order: SortOrder, cmp: (string, string) -> int, x: Track, s: seq<Track>, t: Track)
    requires Consistent(order, cmp) && SortedBy(order, cmp, s)
    requires s != [] && Compare(order, cmp, x, s[0]) < 0 && Compare(order, cmp, x, t) == 0
    ensures TiesWith(order, cmp, s, t) == []
    decreases |s|
  {
    if Compare(order, cmp, s[0], t) == 0 {
      Antisymmetric(order, cmp, x, t);
      Antisymmetric(order, cmp, x, s[0]);
      Transitive(order, cmp, s[0], t, x);
    }
    if |s| > 1 {
      assert SortedBy(order, cmp, s[1..]);
      StrictBefore(order, cmp, x, s[0], s[1]);
      NoTiesAbove(order, cmp, x, s[1..], t);
    }
  }

  /** What sorts strictly before `y` sorts strictly before anything `y` sorts before. */
  lemma StrictBefore(order: SortOrder, cmp: (string, string) -> int, x: Track, y: Track, z: Track)
    requires Consistent(order, cmp)
    requires Compare(order, cmp, x, y) < 0 && Compare(order, cmp, y, z) <= 0
    ensures Compare(order, cmp, x, z) < 0
  {
    Antisymmetric(order, cmp, x, y);
    Antisymmetric(order, cmp, x, z);
    if Compare(order, cmp, x, z) >= 0 {
      Transitive(order, cmp, y, z, x);
    }
  }

  /** The sort is stable: tracks that tie keep their library order. */
  lemma {:induction false} SortViewStable(order: SortOrder, cmp: (string, string) -> int, lib: seq<Track>, t: Track)
    requires Consistent(order, cmp)
    ensures TiesWith(order, cmp, SortView(order, cmp, lib), t) == TiesWith(order, cmp, lib, t)
  {
    if lib != [] {
      var init, x := lib[..|lib| - 1], lib[|lib| - 1];
      var sorted := SortView(order, cmp, init);
      var tx := TiesWith(order, cmp, [x], t);
      assert TiesWith(order, cmp, SortView(order, cmp, lib), t) == TiesWith(order, cmp, sorted, t) + tx by {
        assert SortView(order, cmp, lib) == Insert(order, cmp, x, sorted);
        SortViewSorted(order, cmp, init);
        InsertStable(order, cmp, x, sorted, t);
        TiesWithAppend(order, cmp, sorted, [x], t);
      }
      SortViewStable(order, cmp, init, t);
      assert TiesWith(order, cmp, lib, t) == TiesWith(order, cmp, init, t) + tx by {
        assert init + [x] == lib;
        TiesWithAppend(order, cmp, init, [x], t);
      }
    }
  }

  /** With no sort order selected every pair ties, so the view is the library
      in its own order. */
  lemma NaturalOrderKeepsLibrary(cmp: (string, string) -> int, lib: seq<Track>)
    ensures SortView(Natural, cmp, lib) == lib
  {
    var sorted := SortView(Natural, cmp, lib);
    if lib != [] {
      var t := lib[0];
      ConsistentLifts(Natural, cmp);
      SortViewStable(Natural, cmp, lib, t);
      AllTie(cmp, sorted, t);
      AllTie(cmp, lib, t);
    }
  }

  lemma {:induction false} AllTie(cmp: (string, string) -> int, s: seq<Track>, t: Track)
    ensures TiesWith(Natural, cmp, s, t) == s
  {
    if s != [] {
      AllTie(cmp, s[1..], t);
      assert [s[0]] + s[1..] == s;
    }
  }

  /** `library.findIndex(...)`: the first library index with the same title and
      artist, or -1. */
  function FindIndex(lib: seq<Track>, t: Track): (r: int)
    ensures -1 <= r < |lib|
    ensures r >= 0 ==> SameEntry(lib[r], t) && forall j :: 0 <= j < r ==> !SameEntry(lib[j], t)
    ensures r == -1 <==> forall j :: 0 <= j < |lib| ==> !SameEntry(lib[j], t)
  {
    if lib == [] then -1
    else if SameEntry(lib[0], t) then 0
    else
      var r := FindIndex(lib[1..], t);
      assert forall j :: 1 <= j < |lib| ==> lib[j] == lib[1..][j - 1];
      if r == -1 then -1 else r + 1
  }

  /** One playlist row: its displayed number, the track shown, the library
      index stored on it, and whether it is marked as playing. */
  datatype Row = Row(number: nat, track: Track, libraryIndex: int, playing: bool)

  function RowTracks(rows: seq<Row>): (ts: seq<Track>)
    ensures |ts| == |rows|
    ensures forall k :: 0 <= k < |rows| ==> ts[k] == rows[k].track
  {
    seq(|rows|, k requires 0 <= k < |rows| => rows[k].track)
  }

  /** The rows `renderPlaylist` builds for the library under a sort order,
      with the current library index marked. */
  function RenderRows(order: SortOrder, cmp: (string, string) -> int, lib: seq<Track>, current: int): (rows: seq<Row>)
    ensures |rows| == |lib|
    ensures RowTracks(rows) == SortView(order, cmp, lib)
    ensures multiset(RowTracks(rows)) == multiset(lib)
    ensures forall k :: 0 <= k < |rows| ==> rows[k].number == k + 1
    ensures forall k :: 0 <= k < |rows| ==>
              0 <= rows[k].libraryIndex < |lib| && SameEntry(lib[rows[k].libraryIndex], rows[k].track)
    ensures forall k :: 0 <= k < |rows| ==> (rows[k].playing <==> rows[k].libraryIndex == current)
  {
    var sorted := SortView(order, cmp, lib);
    var rows := seq(|sorted|, k requires 0 <= k < |sorted| =>
      var idx := FindIndex(lib, sorted[k]);
      Row(k + 1, sorted[k], idx, idx == current));
    assert RowTracks(rows) == sorted;
    assert forall k :: 0 <= k < |rows| ==> rows[k].libraryIndex >= 0 by {
      forall k | 0 <= k < |rows| ensures rows[k].libraryIndex >= 0 {
        assert sorted[k] in multiset(lib);
        var j :| 0 <= j < |lib| && lib[j] == sorted[k];
        assert SameEntry(lib[j], sorted[k]);
      }
    }
    rows
  }

  /** With distinct titles-and-artists, every row points at exactly the track
      it shows, and exactly one row is marked when the current index is valid. */
  lemma RowsMapBack(order: SortOrder, cmp: (string, string) -> int, lib: seq<Track>, current: int)
    requires DistinctEntries(lib)
    ensures var rows := RenderRows(order, cmp, lib, current);
            forall k :: 0 <= k < |rows| ==> lib[rows[k].libraryIndex] == rows[k].track
    ensures var rows := RenderRows(order, cmp, lib, current);
            0 <= current < |lib| ==> exists k :: 0 <= k < |rows| && rows[k].playing
    ensures var rows := RenderRows(order, cmp, lib, current);
            forall k1, k2 :: 0 <= k1 < |rows| && 0 <= k2 < |rows| && rows[k1].playing && rows[k2].playing ==> k1 == k2
  {
    var rows := RenderRows(order, cmp, lib, current);
    var ts := RowTracks(rows);
    forall k | 0 <= k < |rows| ensures lib[rows[k].libraryIndex] == rows[k].track {
      InLibraryAt(lib, ts, k);
    }
    if 0 <= current < |lib| {
      CurrentRowShown(order, cmp, lib, current);
    }
    forall k1, k2 | 0 <= k1 < |rows| && 0 <= k2 < |rows| && rows[k1].playing && rows[k2].playing
      ensures k1 == k2
    {
      if k1 != k2 {
        InLibraryAt(lib, ts, k1);
        InLibraryAt(lib, ts, k2);
        SingleOccurrence(lib, current);
        TwoOccurrences(ts, k1, k2);
      }
    }
  }

  /** The current track appears on some row, and that row is marked. */
  lemma CurrentRowShown(order: SortOrder, cmp: (string, string) -> int, lib: seq<Track>, current: int)
    requires DistinctEntries(lib) && 0 <= current < |lib|
    ensures var rows := RenderRows(order, cmp, lib, current);
            exists k :: 0 <= k < |rows| && rows[k].playing
  {
    var rows := RenderRows(order, cmp, lib, current);
    var ts := RowTracks(rows);
    assert lib[current] in multiset(ts);
    var k :| 0 <= k < |ts| && ts[k] == lib[current];
    InLibraryAt(lib, ts, k);
    assert rows[k].playing;
  }

  /** A permutation of a library with distinct entries places at position `k`
      the library entry of that title and artist. */
  lemma InLibraryAt(lib: seq<Track>, ts: seq<Track>, k: int)
    requires DistinctEntries(lib) && multiset(ts) == multiset(lib) && 0 <= k < |ts|
    ensures 0 <= FindIndex(lib, ts[k]) && lib[FindIndex(lib, ts[k])] == ts[k]
  {
    assert ts[k] in multiset(lib);
    var j :| 0 <= j < |lib| && lib[j] == ts[k];
    var r := FindIndex(lib, ts[k]);
    assert SameEntry(lib[j], ts[k]);
  }

  lemma SingleOccurrence(lib: seq<Track>, c: int)
    requires DistinctEntries(lib) && 0 <= c < |lib|
    ensures multiset(lib)[lib[c]] == 1
  {
    var x := lib[c];
    assert lib == lib[..c] + [x] + lib[c + 1..];
    assert x !in lib[..c];
    assert x !in lib[c + 1..];
    assert multiset(lib) == multiset(lib[..c]) + multiset{x} + multiset(lib[c + 1..]);
  }

  lemma TwoOccurrences<T>(s: seq<T>, i: int, j: int)
    requires 0 <= i < |s| && 0 <= j < |s| && i != j && s[i] == s[j]
    ensures multiset(s)[s[i]] >= 2
  {
    var a, b := if i < j then i else j, if i < j then j else i;
    assert s == s[..a] + [s[a]] + s[a + 1..b] + [s[b]] + s[b + 1..];
    assert multiset(s) == multiset(s[..a]) + multiset{s[a]} + multiset(s[a + 1..b]) + multiset{s[b]} + multiset(s[b + 1..]);
  }
}

=== FILE: runtime.dfy ===
/** The playlist's total runtime: the `reduce` over the sorted library and the
    `M:SS` label it is rendered as. */
module Runtime {
  import opened Base
  import opened Clock
  import opened Library
  import opened PlaylistView

  /** JavaScript addition where NaN (`None`) absorbs everything. */
  function Plus(a: Option<nat>, b: Option<nat>): (r: Option<nat>)
    ensures r.Some? <==> a.Some? && b.Some?
    ensures r.Some? ==> r.value == a.value + b.value
  {
    match (a, b)
    case (Some(x), Some(y)) => Some(x + y)
    case _ => None
  }

  /** The reducer of `renderPlaylist`, run over `tracks` from `acc`. */
  function Reduce(acc: Option<nat>, tracks: seq<Track>): (r: Option<nat>)
    ensures r.Some? <==> acc.Some? && forall k :: 0 <= k < |tracks| ==> Seconds(tracks[k]).Some?
    ensures r.Some? ==> r.value >= acc.value
    decreases |tracks|
  {
    if tracks == [] then acc
    else
      var r := Reduce(Plus(acc, Seconds(tracks[0])), tracks[1..]);
      assert forall k :: 1 <= k < |tracks| ==> tracks[k] == tracks[1..][k - 1];
      r
  }

  /** What one track adds to the total: its minutes * 60 + seconds, NaN when
      its duration does not parse. */
  function Seconds(t: Track): Option<nat>
  {
    ParseDuration(t.duration)
  }

  /** Reference definition: the sum of `f` over the tracks, NaN as soon as one
      addend is NaN. */
  function Sum(f: Track -> Option<nat>, tracks: seq<Track>): (r: Option<nat>)
    ensures r.Some? <==> forall k :: 0 <= k < |tracks| ==> f(tracks[k]).Some?
  {
    if tracks == [] then Some(0)
    else
      assert forall k :: 1 <= k < |tracks| ==> tracks[k] == tracks[1..][k - 1];
      Plus(f(tracks[0]), Sum(f, tracks[1..]))
  }

  /** The library's total in seconds: a number exactly when every duration parses. */
  function TotalSeconds(tracks: seq<Track>): (r: Option<nat>)
    ensures r.Some? <==> forall k :: 0 <= k < |tracks| ==> ParseDuration(tracks[k].duration).Some?
  {
    Sum(Seconds, tracks)
  }

  /** The left fold the source runs adds up to the reference total. */
  lemma {:induction false} ReduceIsTotal(acc: Option<nat>, tracks: seq<Track>)
    ensures Reduce(acc, tracks) == Plus(acc, TotalSeconds(tracks))
    decreases |tracks|
  {
    if tracks != [] {
      ReduceIsTotal(Plus(acc, Seconds(tracks[0])), tracks[1..]);
    }
  }

  /** Taking one track out of the middle of the sum. */
  lemma {:induction false} SumWithout(f: Track -> Option<nat>, tracks: seq<Track>, k: int)
    requires 0 <= k < |tracks|
    ensures Sum(f, tracks) == Plus(f(tracks[k]), Sum(f, tracks[..k] + tracks[k + 1..]))
  {
    if k == 0 {
      assert tracks[..0] + tracks[1..] == tracks[1..];
    } else {
      var tail := tracks[1..];
      var restTail := tail[..k - 1] + tail[k..];
      SumWithout(f, tail, k - 1);
      assert tail[k - 1] == tracks[k];
      assert Sum(f, tracks[..k] + tracks[k + 1..]) == Plus(f(tracks[0]), Sum(f, restTail)) by {
        var rest := tracks[..k] + tracks[k + 1..];
        assert rest[0] == tracks[0];
        assert rest[1..] == restTail;
      }
    }
  }

  /** A sum does not depend on the order of its addends. */
  lemma {:induction false} SumIsOrderFree(f: Track -> Option<nat>, a: seq<Track>, b: seq<Track>)
    requires multiset(a) == multiset(b)
    ensures Sum(f, a) == Sum(f, b)
    decreases |a|
  {
    if a == [] {
      assert |b| == |multiset(b)| == 0;
    } else {
      assert a[0] in multiset(b);
      var k :| 0 <= k < |b| && b[k] == a[0];
      var rest := b[..k] + b[k + 1..];
      assert b == b[..k] + [b[k]] + b[k + 1..];
      assert multiset(b) == multiset(b[..k]) + multiset{b[k]} + multiset(b[k + 1..]);
      assert a == [a[0]] + a[1..];
      assert multiset(a) == multiset{a[0]} + multiset(a[1..]);
      assert multiset(rest) == multiset(b[..k]) + multiset(b[k + 1..]);
      assert multiset(a[1..]) == multiset(a) - multiset{a[0]};
      assert multiset(rest) == multiset(b) - multiset{b[k]};
      SumIsOrderFree(f, a[1..], rest);
      SumWithout(f, b, k);
    }
  }

  /** The total does not depend on the order the tracks are summed in. */
  lemma TotalIsOrderFree(a: seq<Track>, b: seq<Track>)
    requires multiset(a) == multiset(b)
    ensures TotalSeconds(a) == TotalSeconds(b)
  {
    SumIsOrderFree(Seconds, a, b);
  }

  /** `${minutes}:${seconds.toString().padStart(2, '0')}`, which reads
      "NaN:NaN" when the total is NaN. */
  function RuntimeLabel(total: Option<nat>): (r: string)
    ensures ParseDuration(r) == total
    ensures total.Some? ==> r == FormatTime(total.value)
  {
    match total
    case Some(s) => ParseFormatRoundTrip(s); FormatTime(s)
    case None =>
      SplitPair("NaN", "NaN", ':');
      assert "NaN:NaN" == "NaN" + [':'] + "NaN";
      assert !IsDigit("NaN"[0]);
      "NaN:NaN"
  }

  /** The total runtime label `renderPlaylist` shows under a sort order. */
  function TotalRuntime(order: SortOrder, cmp: (string, string) -> int, lib: seq<Track>): (r: string)
    ensures ParseDuration(r) == Reduce(Some(0), SortView(order, cmp, lib))
  {
    RuntimeLabel(Reduce(Some(0), SortView(order, cmp, lib)))
  }

  /** The label shows the library's total, whatever the sort order. */
  lemma TotalRuntimeOfLibrary(order: SortOrder, cmp: (string, string) -> int, lib: seq<Track>)
    ensures TotalRuntime(order, cmp, lib) == RuntimeLabel(TotalSeconds(lib))
    ensures ParseDuration(TotalRuntime(order, cmp, lib)) == TotalSeconds(lib)
  {
    var sorted := SortView(order, cmp, lib);
    ReduceIsTotal(Some(0), sorted);
    TotalIsOrderFree(sorted, lib);
    assert Reduce(Some(0), sorted) == TotalSeconds(lib) by {
      assert Plus(Some(0), TotalSeconds(lib)) == TotalSeconds(lib);
    }
    var shown := RuntimeLabel(TotalSeconds(lib));
    assert ParseDuration(shown) == TotalSeconds(lib);
  }

  /** Tracks of 4:55, 4:27 and 3:45 total 13:07, whatever the sort order. */
  lemma RuntimeExample(order: SortOrder, cmp: (string, string) -> int, lib: seq<Track>)
    requires |lib| == 3
    requires lib[0].duration == "4:55" && lib[1].duration == "4:27" && lib[2].duration == "3:45"
    ensures TotalSeconds(lib) == Some(787)
    ensures TotalRuntime(order, cmp, lib) == "13:07"
  {
    ExampleTotal(lib);
    TotalRuntimeOfLibrary(order, cmp, lib);
    ExampleLabel();
  }

  lemma ExampleTotal(lib: seq<Track>)
    requires |lib| == 3
    requires lib[0].duration == "4:55" && lib[1].duration == "4:27" && lib[2].duration == "3:45"
    ensures TotalSeconds(lib) == Some(787)
  {
    Duration455();
    Duration427();
    Duration345();
    ThreeTrackTotal(lib);
  }

  lemma Duration455()
    ensures ParseDuration("4:55") == Some(295)
  {
    FormatOf(295, "4", "55");
    ParseFormatRoundTrip(295);
  }

  lemma Duration427()
    ensures ParseDuration("4:27") == Some(267)
  {
    FormatOf(267, "4", "27");
    ParseFormatRoundTrip(267);
  }

  lemma Duration345()
    ensures ParseDuration("3:45") == Some(225)
  {
    FormatOf(225, "3", "45");
    ParseFormatRoundTrip(225);
  }

  lemma ExampleLabel()
    ensures RuntimeLabel(Some(787)) == "13:07"
  {
    FormatOf(787, "13", "07");
  }

  lemma ThreeTrackTotal(lib: seq<Track>)
    requires |lib| == 3
    requires ParseDuration(lib[0].duration) == Some(295)
    requires ParseDuration(lib[1].duration) == Some(267)
    requires ParseDuration(lib[2].duration) == Some(225)
    ensures TotalSeconds(lib) == Some(787)
  {
    var t1, t2 := lib[1..], lib[2..];
    assert t1[0] == lib[1] && t2[0] == lib[2];
    assert t1[1..] == t2 && t2[1..] == [];
    assert Sum(Seconds, t2) == Plus(Seconds(lib[2]), Some(0));
    assert Sum(Seconds, t1) == Plus(Seconds(lib[1]), Some(225));
    assert Sum(Seconds, lib) == Plus(Seconds(lib[0]), Some(492));
  }
}
